=== FILE: README.md ===
# Titus cluster resolution, modelled in Dafny

This project models how Keel's Titus plugin turns a Titus cluster spec into concrete
server groups (`_titusClusters.kt`). A spec holds `defaults`, an `overrides` map keyed by
region name, a container reference and a list of target regions. Resolution yields one
fully populated server group per region:

- **Scalar fields** (entry point, capacity group, constraints, migration policy, each of
  the five resources, and the IAM profile that `resolveIamProfile` computes but `resolve`
  does not use) follow a three-level chain: the region override's
  value, else the defaults' value, else a built-in value.
- **Collections** (environment, container attributes, tags, the three dependency name
  sets) are merged by the file's private nullable `plus` operators. For maps the right
  operand wins on a key collision, for sets the result is the union, and absent or empty
  operands contribute nothing. The region variables `EC2_REGION`, `NETFLIX_REGION` and
  `NETFLIX_HOME_REGION` are always set to the region name, overriding the user's values.
- **Capacity** comes from a four-row table over whether capacity and scaling are present.
- **Scaling** is taken whole from the override, else from the defaults, else `Scaling()`.
  Every policy then has its warm-up cleared, and unset target-tracking cooldowns get the
  platform defaults.
- **Container**: the spec's container must already be a digest provider. Otherwise
  resolution fails with an error that names the container.

Modules: `Optional` (nullable values and the precedence law), `Plus` (the `plus`
operators), `Types` (the data model), `CapacityResolution`, `ScalingResolution`,
`FieldResolution`, `ContainerResolution`, `Resolver` (`resolve`, `byRegion`) and
`Scenarios` (worked cases).

Modelling decisions:
- Kotlin's `T?` is `Option<T>`. `overrides[region]?.f` is written `OverrideFor(spec, region).f`.
  A region without an override reads as a spec that sets nothing (`Unset`). This is exact
  because every field of a server-group spec is optional.
- `Resources()`, `Constraints()`, `MigrationPolicy()` and the two default cooldowns are
  defined outside this file. They enter as a `Builtins` record parameter, so no concrete
  value is assumed.
- The moniker is taken as given. `application` is the moniker's app and `clusterName` is
  its string form.
- Each target region contributes only its name, so the regions are a `seq<string>`.
- `resolve` returns a `Result`: the list of groups in region order, or
  `ErrorResolvingContainer(container)`. The container check runs inside the per-region
  map. An empty region list therefore succeeds whatever the container is.
- Capacity is autoscaling whenever a scaling is present (non-null), even a `Scaling()`
  with no policies; `EmptyScalingStillAutoscales` states this.
- `resolveIamProfile` is modelled on its own (`ResolveIamProfile`). `resolve` never calls it
  and a server group carries no IAM profile, so `ServerGroup` has no such field.

## Model

| member | source | states |
|---|---|---|
| Optional.Coalesce | keel-titus-plugin/src/main/kotlin/com/netflix/spinnaker/keel/titus/_titusClusters.kt:50-55 | `a ?: b ?: c`: the first layer's value if set, else the second's, else the built-in |
| Optional.PrecedenceIsFunctional | keel-titus-plugin/src/main/kotlin/com/netflix/spinnaker/keel/titus/_titusClusters.kt:59-69 | the precedence laws fix one value, so each scalar contract below determines its field completely |
| Plus.SetPlus | keel-titus-plugin/src/main/kotlin/com/netflix/spinnaker/keel/titus/_titusClusters.kt:129-137 | the nullable set `plus` is always the union of its operands, with absent read as empty |
| Plus.SetPlusEmptyLeft | keel-titus-plugin/src/main/kotlin/com/netflix/spinnaker/keel/titus/_titusClusters.kt:131 | an absent or empty left set yields the right set, or empty if that is absent |
| Plus.SetPlusEmptyRight | keel-titus-plugin/src/main/kotlin/com/netflix/spinnaker/keel/titus/_titusClusters.kt:132 | an absent or empty right set leaves the left set unchanged |
| Plus.MapPlus | keel-titus-plugin/src/main/kotlin/com/netflix/spinnaker/keel/titus/_titusClusters.kt:139-147 | the nullable map `plus` has the union of both key sets; the right value wins on a collision, the left value stands elsewhere |
| Plus.RightBiasedUnionIsFunctional | keel-titus-plugin/src/main/kotlin/com/netflix/spinnaker/keel/titus/_titusClusters.kt:143-146 | the key-set and value laws of the map merge determine the merged map uniquely |
| Plus.MapPlusEmptyLeft | keel-titus-plugin/src/main/kotlin/com/netflix/spinnaker/keel/titus/_titusClusters.kt:141 | an absent or empty left map yields the right map, or empty if that is absent |
| Plus.MapPlusEmptyRight | keel-titus-plugin/src/main/kotlin/com/netflix/spinnaker/keel/titus/_titusClusters.kt:142 | an absent or empty right map leaves the left map unchanged |
| CapacityResolution.ResolveCapacity | keel-titus-plugin/src/main/kotlin/com/netflix/spinnaker/keel/titus/_titusClusters.kt:26-34 | capacity is autoscaling iff the override or the defaults set scaling; its bounds are the override's capacity, else the defaults', else (1,1,1) |
| CapacityResolution.PlaceholderCapacity | keel-titus-plugin/src/main/kotlin/com/netflix/spinnaker/keel/titus/_titusClusters.kt:30-31 | with no capacity anywhere the result is exactly `AutoScalingCapacity(1,1,1)` with scaling and `DefaultCapacity(1,1,1)` without |
| CapacityResolution.EmptyScalingStillAutoscales | keel-titus-plugin/src/main/kotlin/com/netflix/spinnaker/keel/titus/_titusClusters.kt:27-32 | the presence test is non-null, not non-empty: an empty `Scaling()` override still gives autoscaling capacity |
| FieldResolution.ResolveIamProfile | keel-titus-plugin/src/main/kotlin/com/netflix/spinnaker/keel/titus/_titusClusters.kt:59-60 | override's IAM profile, else the defaults', else the app name followed by `InstanceProfile` |
| FieldResolution.ResolveEntryPoint | keel-titus-plugin/src/main/kotlin/com/netflix/spinnaker/keel/titus/_titusClusters.kt:62-63 | override's entry point, else the defaults', else the empty string |
| FieldResolution.ResolveCapacityGroup | keel-titus-plugin/src/main/kotlin/com/netflix/spinnaker/keel/titus/_titusClusters.kt:65-66 | override's capacity group, else the defaults', else the app name |
| FieldResolution.ResolveConstraints | keel-titus-plugin/src/main/kotlin/com/netflix/spinnaker/keel/titus/_titusClusters.kt:68-69 | override's constraints, else the defaults', else the built-in `Constraints()` |
| FieldResolution.ResolveMigrationPolicy | keel-titus-plugin/src/main/kotlin/com/netflix/spinnaker/keel/titus/_titusClusters.kt:81-83 | override's migration policy, else the defaults', else the built-in `MigrationPolicy()` |
| FieldResolution.ResolveResources | keel-titus-plugin/src/main/kotlin/com/netflix/spinnaker/keel/titus/_titusClusters.kt:47-57 | each of cpu, disk, gpu, memory and networkMbps is resolved on its own: override field, else defaults field, else the built-in field |
| FieldResolution.CpuOnlyOverrideInherits | keel-titus-plugin/src/main/kotlin/com/netflix/spinnaker/keel/titus/_titusClusters.kt:50-55 | an override that sets only cpu gets that cpu and still inherits disk, gpu, memory and network from the defaults or the built-ins |
| FieldResolution.RegionEnv | keel-titus-plugin/src/main/kotlin/com/netflix/spinnaker/keel/titus/_titusClusters.kt:37-42 | the region variables map exactly the three reserved keys, each to the region name |
| FieldResolution.ResolveEnv | keel-titus-plugin/src/main/kotlin/com/netflix/spinnaker/keel/titus/_titusClusters.kt:39-42 | env keys are the defaults' plus the override's plus the three reserved keys; reserved keys equal the region, otherwise the override's value beats the defaults' |
| FieldResolution.RegionVariablesWin | keel-titus-plugin/src/main/kotlin/com/netflix/spinnaker/keel/titus/_titusClusters.kt:40-42 | whatever the user sets, every reserved key is present and equals the region name |
| FieldResolution.ResolveContainerAttributes | keel-titus-plugin/src/main/kotlin/com/netflix/spinnaker/keel/titus/_titusClusters.kt:44-45 | container attributes are the right-biased union of the defaults' and the override's |
| FieldResolution.ResolveTags | keel-titus-plugin/src/main/kotlin/com/netflix/spinnaker/keel/titus/_titusClusters.kt:121 | tags are the right-biased union of the defaults' and the override's |
| FieldResolution.ResolveDependencies | keel-titus-plugin/src/main/kotlin/com/netflix/spinnaker/keel/titus/_titusClusters.kt:85-90 | load balancer, security group and target group names are each the union of the defaults' and the override's |
| FieldResolution.NoOverrideUsesDefaults | keel-titus-plugin/src/main/kotlin/com/netflix/spinnaker/keel/titus/_titusClusters.kt:59-83 | a region without an override takes every scalar field and each of the five resources from the defaults, else the built-in |
| ScalingResolution.NormalizeTargetTracking | keel-titus-plugin/src/main/kotlin/com/netflix/spinnaker/keel/titus/_titusClusters.kt:97 | warm-up cleared, a set cooldown kept, an unset one replaced by its default, every other field unchanged |
| ScalingResolution.NormalizeStep | keel-titus-plugin/src/main/kotlin/com/netflix/spinnaker/keel/titus/_titusClusters.kt:98 | warm-up cleared, every other field unchanged |
| ScalingResolution.NormalizeTargetTrackingSet | keel-titus-plugin/src/main/kotlin/com/netflix/spinnaker/keel/titus/_titusClusters.kt:97 | the result holds the normalised form of every input policy and nothing else, and each has no warm-up and both cooldowns |
| ScalingResolution.NormalizeStepSet | keel-titus-plugin/src/main/kotlin/com/netflix/spinnaker/keel/titus/_titusClusters.kt:98 | the result holds the normalised form of every input step policy and nothing else, none with a warm-up |
| ScalingResolution.NormalizeScaling | keel-titus-plugin/src/main/kotlin/com/netflix/spinnaker/keel/titus/_titusClusters.kt:96-99 | both policy sets are normalised element by element, and the result is in normal form |
| ScalingResolution.ResolveScaling | keel-titus-plugin/src/main/kotlin/com/netflix/spinnaker/keel/titus/_titusClusters.kt:92-100 | the override's whole scaling, else the defaults', normalised; `Scaling()` when neither is set |
| ScalingResolution.TargetTrackingNormalizedIsFunctional | keel-titus-plugin/src/main/kotlin/com/netflix/spinnaker/keel/titus/_titusClusters.kt:97 | the per-policy normalisation law determines the normalised policy |
| ScalingResolution.NormalizedFromIsFunctional | keel-titus-plugin/src/main/kotlin/com/netflix/spinnaker/keel/titus/_titusClusters.kt:96-99 | two scalings normalised from the same source are equal |
| ScalingResolution.NormalizeIsIdempotent | keel-titus-plugin/src/main/kotlin/com/netflix/spinnaker/keel/titus/_titusClusters.kt:96-99 | normalising a scaling already in normal form changes nothing |
| ScalingResolution.ResolvedScalingIsStable | keel-titus-plugin/src/main/kotlin/com/netflix/spinnaker/keel/titus/_titusClusters.kt:92-100 | a resolved scaling is a fixed point of normalisation |
| ScalingResolution.OverrideScalingReplacesDefaults | keel-titus-plugin/src/main/kotlin/com/netflix/spinnaker/keel/titus/_titusClusters.kt:93-94 | with an override scaling present, the defaults' policies have no effect (no per-policy merge) |
| ContainerResolution.ResolveContainerProvider | keel-titus-plugin/src/main/kotlin/com/netflix/spinnaker/keel/titus/_titusClusters.kt:71-79 | succeeds iff the container is a digest provider, returning that same provider; otherwise fails with an error carrying the container |
| Resolver.ResolveRegion | keel-titus-plugin/src/main/kotlin/com/netflix/spinnaker/keel/titus/_titusClusters.kt:104-125 | a group has no id, the cluster's name, the spec's account and the given region, and the checked container; capacity variant and bounds follow the capacity table; entry point, capacity group, constraints, migration policy and each resource follow override > defaults > built-in; env, container attributes and tags are right-biased unions (region variables last); dependency name sets are unions; scaling is the override's, else the defaults', normalised, else `Scaling()` |
| Resolver.ResolveRegions | keel-titus-plugin/src/main/kotlin/com/netflix/spinnaker/keel/titus/_titusClusters.kt:103-126 | fails iff some region is listed and the container has no digest, with that container in the error; otherwise one group per listed region, in order |
| Resolver.Resolve | keel-titus-plugin/src/main/kotlin/com/netflix/spinnaker/keel/titus/_titusClusters.kt:102-127 | one group per target region, each being that region's resolution (no id, the cluster's name, the account and region of its place in the list); fails only on an undigested container with at least one region |
| Resolver.ByRegion | keel-titus-plugin/src/main/kotlin/com/netflix/spinnaker/keel/titus/_titusClusters.kt:20-21 | the keys are exactly the groups' regions, and each key maps to one of the groups with that region |
| Resolver.ByRegionLastWins | keel-titus-plugin/src/main/kotlin/com/netflix/spinnaker/keel/titus/_titusClusters.kt:20-21 | a group whose region no later group repeats is the value at its region |
| Resolver.ByRegionKeys | keel-titus-plugin/src/main/kotlin/com/netflix/spinnaker/keel/titus/_titusClusters.kt:20-21 | groups listed in step with a region list are keyed by exactly those regions |
| Resolver.ResolveByRegion | keel-titus-plugin/src/main/kotlin/com/netflix/spinnaker/keel/titus/_titusClusters.kt:102-127 | keying the resolved groups by region gives exactly the target regions, each mapped to that region's resolution, however often it is listed |
| Resolver.NoRegionsNoFailure | keel-titus-plugin/src/main/kotlin/com/netflix/spinnaker/keel/titus/_titusClusters.kt:103-114 | an empty region list resolves to no groups and never fails, whatever the container |
| Scenarios.DefaultEntryPointApplies | keel-titus-plugin/src/main/kotlin/com/netflix/spinnaker/keel/titus/_titusClusters.kt:62-63 | defaults entry point `run.sh` with one region and no override: that region's group runs `run.sh` |
| Scenarios.NothingSetGivesFixedSingleInstance | keel-titus-plugin/src/main/kotlin/com/netflix/spinnaker/keel/titus/_titusClusters.kt:31 | no capacity and no scaling in the region's override or the defaults gives `DefaultCapacity(1,1,1)`, whether or not an override for the region exists |
| Scenarios.WarmupClearedCooldownsFilled | keel-titus-plugin/src/main/kotlin/com/netflix/spinnaker/keel/titus/_titusClusters.kt:97 | a policy with no cooldowns comes out with no warm-up and both default cooldowns, whatever its warm-up was |
| Scenarios.UnresolvedContainerFails | keel-titus-plugin/src/main/kotlin/com/netflix/spinnaker/keel/titus/_titusClusters.kt:71-79 | a reference or tag container with at least one region fails resolution, and the error names that container |

## Left out

- `parseMoniker` and `Moniker.toString()` (line 15): they are defined elsewhere. `TitusServerGroup.moniker` (lines 23-24) only calls `parseMoniker`, and `resolve` does not use it. The `moniker` that `resolve`, `resolveIamProfile` and `resolveCapacityGroup` read belongs to the cluster spec; its app and string form are the given `application` and `clusterName`.
- `artifactName` and `artifactVersion`: they are copied from the spec into each group unchanged and take part in no rule.
- The final `.toSet()` of `resolve`: it deduplicates whole groups by Kotlin data-class equality. `Resolve` returns the list in region order. `ResolveByRegion` shows that keying by region loses nothing, because two entries for the same region are equal groups.
- Concrete values of `Resources()`, `Constraints()`, `MigrationPolicy()` and the default cooldowns: they are defined elsewhere, so they are the `Builtins` parameter.
- `Duration` arithmetic: cooldowns and warm-ups are opaque, and only their presence matters.
- Policy fields other than warm-up and the cooldowns: they are carried as one opaque `settings` map that resolution copies unchanged.
- Constraint values are `Map<String, Any>` in Kotlin. Here they are string maps, because resolution never looks inside them.
- The non-digest container providers are named only by their identifying strings. Resolution only asks whether a provider carries a digest.
- Idempotence of resolution needs no lemma: every member is a mathematical function of its inputs.

=== FILE: capacity.dfy ===
/** `resolveCapacity`: fixed or autoscaling capacity for one region. */
module CapacityResolution {
  import opened Optional
  import opened Types

  /** The capacity bounds of `c` and `d` agree, whatever their variants. */
  predicate SameBounds(c: Capacity, d: Capacity) {
    c.min == d.min && c.max == d.max && c.desired == d.desired
  }

  /** Scaling is present for `region` when the override or the defaults set it
      (present, not necessarily holding any policy). */
  predicate HasScaling(spec: ClusterSpec, region: string) {
    OverrideFor(spec, region).scaling.Some? || spec.defaults.scaling.Some?
  }

  /** The capacity law for `region`: autoscaling exactly when scaling is present, with
      the override's bounds, else the defaults', else (1, 1, 1). */
  ghost predicate CapacityResolved(r: Capacity, spec: ClusterSpec, region: string) {
    && (r.AutoScalingCapacity? <==> HasScaling(spec, region))
    && (OverrideFor(spec, region).capacity.Some? ==>
          SameBounds(r, OverrideFor(spec, region).capacity.value))
    && (OverrideFor(spec, region).capacity.None? && spec.defaults.capacity.Some? ==>
          SameBounds(r, spec.defaults.capacity.value))
    && (OverrideFor(spec, region).capacity.None? && spec.defaults.capacity.None? ==>
          r.min == 1 && r.max == 1 && r.desired == 1)
  }

  /** The four-row table, checked in order: no capacity with scaling, no capacity
      without scaling, then the given capacity wrapped by whether scaling is present. */
  function ResolveCapacity(spec: ClusterSpec, region: string): (r: Capacity)
    ensures CapacityResolved(r, spec, region)
  {
    var scaling := OverrideFor(spec, region).scaling.OrElse(spec.defaults.scaling);
    var capacity := OverrideFor(spec, region).capacity.OrElse(spec.defaults.capacity);
    if capacity.None? && scaling.Some? then AutoScalingCapacity(1, 1, 1)
    else if capacity.None? then DefaultCapacity(1, 1, 1)
    else if scaling.Some? then AutoScalingCapacity(capacity.value.min, capacity.value.max, capacity.value.desired)
    else DefaultCapacity(capacity.value.min, capacity.value.max, capacity.value.desired)
  }

  /** With no capacity anywhere the result is exactly one of the two placeholders. */
  lemma PlaceholderCapacity(spec: ClusterSpec, region: string)
    requires OverrideFor(spec, region).capacity.None? && spec.defaults.capacity.None?
    ensures HasScaling(spec, region) ==> ResolveCapacity(spec, region) == AutoScalingCapacity(1, 1, 1)
    ensures !HasScaling(spec, region) ==> ResolveCapacity(spec, region) == DefaultCapacity(1, 1, 1)
  {
  }

  /** Presence, not content, decides: an explicitly empty `Scaling()` still makes
      the capacity autoscaling. */
  lemma EmptyScalingStillAutoscales(spec: ClusterSpec, region: string)
    requires OverrideFor(spec, region).scaling == Some(NoScaling)
    ensures ResolveCapacity(spec, region).AutoScalingCapacity?
  {
  }
}

=== FILE: container.dfy ===
/** `resolveContainerProvider`: the spec's container must already carry a digest. */
module ContainerResolution {
  import opened Types

  datatype Result<T> = Success(value: T) | Failure(error: ResolveError)

  /** Succeeds with the digest provider itself exactly when the container carries
      a digest; otherwise fails with an error naming that container. */
  function ResolveContainerProvider(container: ContainerProvider): (r: Result<DigestProvider>)
    ensures r.Success? <==> container.Digest?
    ensures r.Success? ==> container == Digest(r.value)
    ensures r.Failure? ==> r.error == ErrorResolvingContainer(container)
  {
    match container
    case Digest(provider) => Success(provider)
    case _ => Failure(ErrorResolvingContainer(container))
  }
}

=== FILE: fields.dfy ===
/** Per-region resolution of the scalar and collection fields of a server group. */
module FieldResolution {
  import opened Optional
  import opened Plus
  import opened Types

  // Scalar fields: override, else defaults, else a built-in value.

  function ResolveIamProfile(spec: ClusterSpec, region: string): (r: string)
    ensures Precedence(r, OverrideFor(spec, region).iamProfile, spec.defaults.iamProfile,
                       spec.application + "InstanceProfile")
  {
    Coalesce(OverrideFor(spec, region).iamProfile, spec.defaults.iamProfile, spec.application + "InstanceProfile")
  }

  function ResolveEntryPoint(spec: ClusterSpec, region: string): (r: string)
    ensures Precedence(r, OverrideFor(spec, region).entryPoint, spec.defaults.entryPoint, "")
  {
    Coalesce(OverrideFor(spec, region).entryPoint, spec.defaults.entryPoint, "")
  }

  function ResolveCapacityGroup(spec: ClusterSpec, region: string): (r: string)
    ensures Precedence(r, OverrideFor(spec, region).capacityGroup, spec.defaults.capacityGroup, spec.application)
  {
    Coalesce(OverrideFor(spec, region).capacityGroup, spec.defaults.capacityGroup, spec.application)
  }

  function ResolveConstraints(spec: ClusterSpec, region: string, b: Builtins): (r: Constraints)
    ensures Precedence(r, OverrideFor(spec, region).constraints, spec.defaults.constraints, b.constraints)
  {
    Coalesce(OverrideFor(spec, region).constraints, spec.defaults.constraints, b.constraints)
  }

  function ResolveMigrationPolicy(spec: ClusterSpec, region: string, b: Builtins): (r: MigrationPolicy)
    ensures Precedence(r, OverrideFor(spec, region).migrationPolicy, spec.defaults.migrationPolicy,
                       b.migrationPolicy)
  {
    Coalesce(OverrideFor(spec, region).migrationPolicy, spec.defaults.migrationPolicy, b.migrationPolicy)
  }

  /** `r?.f` on a resources spec that may be absent: an absent spec sets nothing. */
  function ResourcesOrUnset(r: Option<ResourcesSpec>): ResourcesSpec {
    r.GetOr(ResourcesSpec(None, None, None, None, None))
  }

  /** The resources law: each of the five fields follows its own precedence chain. */
  ghost predicate ResourcesResolved(r: Resources, spec: ClusterSpec, region: string, b: Builtins) {
    var o, d := ResourcesOrUnset(OverrideFor(spec, region).resources), ResourcesOrUnset(spec.defaults.resources);
    && Precedence(r.cpu, o.cpu, d.cpu, b.resources.cpu)
    && Precedence(r.disk, o.disk, d.disk, b.resources.disk)
    && Precedence(r.gpu, o.gpu, d.gpu, b.resources.gpu)
    && Precedence(r.memory, o.memory, d.memory, b.resources.memory)
    && Precedence(r.networkMbps, o.networkMbps, d.networkMbps, b.resources.networkMbps)
  }

  /** Each of the five resources is resolved on its own, not the whole object. */
  function ResolveResources(spec: ClusterSpec, region: string, b: Builtins): (r: Resources)
    ensures ResourcesResolved(r, spec, region, b)
  {
    var o := ResourcesOrUnset(OverrideFor(spec, region).resources);
    var d := ResourcesOrUnset(spec.defaults.resources);
    Resources(
      cpu := Coalesce(o.cpu, d.cpu, b.resources.cpu),
      disk := Coalesce(o.disk, d.disk, b.resources.disk),
      gpu := Coalesce(o.gpu, d.gpu, b.resources.gpu),
      memory := Coalesce(o.memory, d.memory, b.resources.memory),
      networkMbps := Coalesce(o.networkMbps, d.networkMbps, b.resources.networkMbps))
  }

  /** An override that sets only `cpu` still inherits the other four resources. */
  lemma CpuOnlyOverrideInherits(spec: ClusterSpec, region: string, b: Builtins, cpu: int)
    requires OverrideFor(spec, region).resources == Some(ResourcesSpec(Some(cpu), None, None, None, None))
    ensures var r, d := ResolveResources(spec, region, b), ResourcesOrUnset(spec.defaults.resources);
      && r.cpu == cpu
      && r.disk == d.disk.GetOr(b.resources.disk)
      && r.gpu == d.gpu.GetOr(b.resources.gpu)
      && r.memory == d.memory.GetOr(b.resources.memory)
      && r.networkMbps == d.networkMbps.GetOr(b.resources.networkMbps)
  {
  }

  // Collection fields: merged with the nullable `plus` operators.

  /** The region-identifying variables Titus containers always get. */
  const NetflixContainerEnvVars: seq<string> := ["EC2_REGION", "NETFLIX_REGION", "NETFLIX_HOME_REGION"]

  /** `NETFLIX_CONTAINER_ENV_VARS.associateWith { region }`. */
  function RegionEnv(region: string): (m: map<string, string>)
    ensures m.Keys == set k | k in NetflixContainerEnvVars
    ensures forall k | k in m :: m[k] == region
  {
    map k | k in NetflixContainerEnvVars :: region
  }

  /** The environment law: every key of the defaults and the override plus the region
      variables; a region variable equals the region, otherwise the override beats the defaults. */
  ghost predicate EnvResolved(r: map<string, string>, spec: ClusterSpec, region: string) {
    var d, o := MapOrEmpty(spec.defaults.env), MapOrEmpty(OverrideFor(spec, region).env);
    && r.Keys == d.Keys + o.Keys + (set k | k in NetflixContainerEnvVars)
    && (forall k | k in NetflixContainerEnvVars :: r[k] == region)
    && (forall k | k in o && k !in NetflixContainerEnvVars :: r[k] == o[k])
    && (forall k | k in d && k !in o && k !in NetflixContainerEnvVars :: r[k] == d[k])
  }

  /** `emptyMap() + defaults.env + overrides[region]?.env + <region variables>`. */
  function ResolveEnv(spec: ClusterSpec, region: string): (r: map<string, string>)
    ensures EnvResolved(r, spec, region)
  {
    MapPlus(Some(MapPlus(Some(MapPlus(Some(map[]), spec.defaults.env)), OverrideFor(spec, region).env)),
            Some(RegionEnv(region)))
  }

  function ResolveContainerAttributes(spec: ClusterSpec, region: string): (r: map<string, string>)
    ensures RightBiasedUnion(r, MapOrEmpty(spec.defaults.containerAttributes),
                             MapOrEmpty(OverrideFor(spec, region).containerAttributes))
  {
    MapPlus(Some(MapPlus(Some(map[]), spec.defaults.containerAttributes)), OverrideFor(spec, region).containerAttributes)
  }

  /** `defaults.tags + overrides[region]?.tags`. */
  function ResolveTags(spec: ClusterSpec, region: string): (r: map<string, string>)
    ensures RightBiasedUnion(r, MapOrEmpty(spec.defaults.tags), MapOrEmpty(OverrideFor(spec, region).tags))
  {
    MapPlus(spec.defaults.tags, OverrideFor(spec, region).tags)
  }

  function LoadBalancerNames(d: Option<ClusterDependencies>): Option<set<string>> {
    if d.Some? then Some(d.value.loadBalancerNames) else None
  }

  function SecurityGroupNames(d: Option<ClusterDependencies>): Option<set<string>> {
    if d.Some? then Some(d.value.securityGroupNames) else None
  }

  function TargetGroups(d: Option<ClusterDependencies>): Option<set<string>> {
    if d.Some? then Some(d.value.targetGroups) else None
  }

  /** The dependencies law: each name set is the union of the defaults' and the override's. */
  ghost predicate DependenciesResolved(r: ClusterDependencies, spec: ClusterSpec, region: string) {
    var d, o := spec.defaults.dependencies, OverrideFor(spec, region).dependencies;
    && r.loadBalancerNames == SetOrEmpty(LoadBalancerNames(d)) + SetOrEmpty(LoadBalancerNames(o))
    && r.securityGroupNames == SetOrEmpty(SecurityGroupNames(d)) + SetOrEmpty(SecurityGroupNames(o))
    && r.targetGroups == SetOrEmpty(TargetGroups(d)) + SetOrEmpty(TargetGroups(o))
  }

  /** Each of the three name sets is the union of the defaults' and the override's. */
  function ResolveDependencies(spec: ClusterSpec, region: string): (r: ClusterDependencies)
    ensures DependenciesResolved(r, spec, region)
  {
    var d := spec.defaults.dependencies;
    var o := OverrideFor(spec, region).dependencies;
    ClusterDependencies(
      loadBalancerNames := SetPlus(LoadBalancerNames(d), LoadBalancerNames(o)),
      securityGroupNames := SetPlus(SecurityGroupNames(d), SecurityGroupNames(o)),
      targetGroups := SetPlus(TargetGroups(d), TargetGroups(o)))
  }

  /** User-supplied values for the region variables never survive. */
  lemma RegionVariablesWin(spec: ClusterSpec, region: string, k: string)
    requires k in NetflixContainerEnvVars
    ensures k in ResolveEnv(spec, region) && ResolveEnv(spec, region)[k] == region
  {
  }

  /** A region with no override resolves every scalar field from the defaults, else the built-ins. */
  lemma NoOverrideUsesDefaults(spec: ClusterSpec, region: string, b: Builtins)
    requires region !in spec.overrides
    ensures ResolveEntryPoint(spec, region) == spec.defaults.entryPoint.GetOr("")
    ensures ResolveIamProfile(spec, region) == spec.defaults.iamProfile.GetOr(spec.application + "InstanceProfile")
    ensures ResolveCapacityGroup(spec, region) == spec.defaults.capacityGroup.GetOr(spec.application)
    ensures ResolveConstraints(spec, region, b) == spec.defaults.constraints.GetOr(b.constraints)
    ensures ResolveMigrationPolicy(spec, region, b) == spec.defaults.migrationPolicy.GetOr(b.migrationPolicy)
    ensures var r, d := ResolveResources(spec, region, b), ResourcesOrUnset(spec.defaults.resources);
      && r.cpu == d.cpu.GetOr(b.resources.cpu)
      && r.disk == d.disk.GetOr(b.resources.disk)
      && r.gpu == d.gpu.GetOr(b.resources.gpu)
      && r.memory == d.memory.GetOr(b.resources.memory)
      && r.networkMbps == d.networkMbps.GetOr(b.resources.networkMbps)
  {
  }
}

=== FILE: optional.dfy ===
/** Kotlin's nullable values and the null-coalescing chains built from them. */
module Optional {

  /** A value that may be absent, standing for Kotlin's `T?`. */
  datatype Option<T> = None | Some(value: T) {

    /** `this ?: other`, where `other` may itself be absent. */
    function OrElse(other: Option<T>): Option<T> {
      if Some? then this else other
    }

    /** `this ?: fallback`, where `fallback` is always present. */
    function GetOr(fallback: T): T {
      if Some? then value else fallback
    }
  }

  /** The three-level precedence every scalar field follows: the first layer wins
      when it is set, the second when only it is set, the built-in value when
      neither is set. */
  ghost predicate Precedence<T>(r: T, first: Option<T>, second: Option<T>, builtin: T) {
    && (first.Some? ==> r == first.value)
    && (first.None? && second.Some? ==> r == second.value)
    && (first.None? && second.None? ==> r == builtin)
  }

  /** `first ?: second ?: builtin`. */
  function Coalesce<T>(first: Option<T>, second: Option<T>, builtin: T): (r: T)
    ensures Precedence(r, first, second, builtin)
  {
    first.OrElse(second).GetOr(builtin)
  }

  /** The precedence laws leave no freedom: they pin down a single value. */
  lemma PrecedenceIsFunctional<T>(r1: T, r2: T, first: Option<T>, second: Option<T>, builtin: T)
    requires Precedence(r1, first, second, builtin)
    requires Precedence(r2, first, second, builtin)
    ensures r1 == r2
  {
  }
}

=== FILE: plus.dfy ===
/** The file-private `Set<E>?.plus` and `Map<K, V>?.plus` operators: merges of
    collections that may be absent, where absent or empty operands contribute nothing. */
module Plus {
  import opened Optional

  function SetOrEmpty<E>(s: Option<set<E>>): set<E> {
    s.GetOr({})
  }

  function MapOrEmpty<K, V>(m: Option<map<K, V>>): map<K, V> {
    m.GetOr(map[])
  }

  /** `left + right` on nullable sets: short-circuits on an absent or empty side,
      otherwise copies both into a fresh set. The result is always the union. */
  function SetPlus<E>(left: Option<set<E>>, right: Option<set<E>>): (r: set<E>)
    ensures r == SetOrEmpty(left) + SetOrEmpty(right)
  {
    if left.None? || left.value == {} then right.GetOr({})
    else if right.None? || right.value == {} then left.value
    else left.value + right.value
  }

  /** `r` holds every key of `left` and `right`, with `right`'s value on a collision. */
  ghost predicate RightBiasedUnion<K, V>(r: map<K, V>, left: map<K, V>, right: map<K, V>) {
    && r.Keys == left.Keys + right.Keys
    && (forall k | k in right :: r[k] == right[k])
    && (forall k | k in left && k !in right :: r[k] == left[k])
  }

  /** `left + right` on nullable maps: short-circuits on an absent or empty side,
      otherwise `putAll(left)` then `putAll(right)` into a fresh map. */
  function MapPlus<K, V>(left: Option<map<K, V>>, right: Option<map<K, V>>): (r: map<K, V>)
    ensures RightBiasedUnion(r, MapOrEmpty(left), MapOrEmpty(right))
  {
    if left.None? || left.value == map[] then right.GetOr(map[])
    else if right.None? || right.value == map[] then left.value
    else left.value + right.value
  }

  /** A right-biased union is determined by its operands. */
  lemma RightBiasedUnionIsFunctional<K, V>(r1: map<K, V>, r2: map<K, V>, left: map<K, V>, right: map<K, V>)
    requires RightBiasedUnion(r1, left, right)
    requires RightBiasedUnion(r2, left, right)
    ensures r1 == r2
  {
  }

  /** An absent or empty left operand yields the right one, or nothing if that is absent too. */
  lemma SetPlusEmptyLeft<E>(left: Option<set<E>>, right: Option<set<E>>)
    requires left.None? || left.value == {}
    ensures SetPlus(left, right) == SetOrEmpty(right)
  {
  }

  /** An absent or empty right operand leaves the left one unchanged. */
  lemma SetPlusEmptyRight<E>(left: Option<set<E>>, right: Option<set<E>>)
    requires right.None? || right.value == {}
    ensures SetPlus(left, right) == SetOrEmpty(left)
  {
  }

  /** An absent or empty left map yields the right one, or the empty map if that is absent too. */
  lemma MapPlusEmptyLeft<K, V>(left: Option<map<K, V>>, right: Option<map<K, V>>)
    requires left.None? || left.value == map[]
    ensures MapPlus(left, right) == MapOrEmpty(right)
  {
  }

  /** An absent or empty right map leaves the left one unchanged. */
  lemma MapPlusEmptyRight<K, V>(left: Option<map<K, V>>, right: Option<map<K, V>>)
    requires right.None? || right.value == map[]
    ensures MapPlus(left, right) == MapOrEmpty(left)
  {
  }
}

=== FILE: resolver.dfy ===
/** `resolve` and `byRegion`: one server group per target region, and the
    groups keyed by region. */
module Resolver {
  import opened Optional
  import opened Plus
  import opened Types
  import opened CapacityResolution
  import opened ScalingResolution
  import opened FieldResolution
  import opened ContainerResolution

  /** The server group for one region, given the already checked container. */
  function ResolveRegion(spec: ClusterSpec, b: Builtins, region: string, container: DigestProvider): (g: ServerGroup)
    ensures g.id.None? && g.name == spec.clusterName
    ensures g.location == Location(spec.locations.account, region)
    ensures g.container == container
    ensures CapacityResolved(g.capacity, spec, region)
    ensures Precedence(g.entryPoint, OverrideFor(spec, region).entryPoint, spec.defaults.entryPoint, "")
    ensures Precedence(g.capacityGroup, OverrideFor(spec, region).capacityGroup, spec.defaults.capacityGroup,
                       spec.application)
    ensures Precedence(g.constraints, OverrideFor(spec, region).constraints, spec.defaults.constraints, b.constraints)
    ensures Precedence(g.migrationPolicy, OverrideFor(spec, region).migrationPolicy, spec.defaults.migrationPolicy,
                       b.migrationPolicy)
    ensures ResourcesResolved(g.resources, spec, region, b)
    ensures DependenciesResolved(g.dependencies, spec, region)
    ensures EnvResolved(g.env, spec, region)
    ensures RightBiasedUnion(g.containerAttributes, MapOrEmpty(spec.defaults.containerAttributes),
                             MapOrEmpty(OverrideFor(spec, region).containerAttributes))
    ensures RightBiasedUnion(g.tags, MapOrEmpty(spec.defaults.tags), MapOrEmpty(OverrideFor(spec, region).tags))
    ensures ScalingResolved(g.scaling, spec, region, b)
    ensures IsNormalized(g.scaling)
  {
    ServerGroup(
      id := None,
      name := spec.clusterName,
      location := Location(spec.locations.account, region),
      capacity := ResolveCapacity(spec, region),
      capacityGroup := ResolveCapacityGroup(spec, region),
      constraints := ResolveConstraints(spec, region, b),
      container := container,
      dependencies := ResolveDependencies(spec, region),
      entryPoint := ResolveEntryPoint(spec, region),
      env := ResolveEnv(spec, region),
      containerAttributes := ResolveContainerAttributes(spec, region),
      migrationPolicy := ResolveMigrationPolicy(spec, region, b),
      resources := ResolveResources(spec, region, b),
      tags := ResolveTags(spec, region),
      scaling := ResolveScaling(spec, region, b))
  }

  /** The per-region `map` of `resolve`: the container check runs once per region,
      so it fails only when there is at least one region to resolve. */
  function ResolveRegions(spec: ClusterSpec, b: Builtins, regions: seq<string>): (r: Result<seq<ServerGroup>>)
    ensures r.Failure? <==> |regions| > 0 && !spec.container.Digest?
    ensures r.Failure? ==> r.error == ErrorResolvingContainer(spec.container)
    ensures r.Success? ==> |r.value| == |regions|
    ensures r.Success? ==> forall i | 0 <= i < |regions| ::
      spec.container.Digest? && r.value[i] == ResolveRegion(spec, b, regions[i], spec.container.provider)
  {
    if |regions| == 0 then Success([])
    else
      match ResolveContainerProvider(spec.container)
      case Failure(e) => Failure(e)
      case Success(container) =>
        match ResolveRegions(spec, b, regions[1..])
        case Failure(e) => Failure(e)
        case Success(rest) => Success([ResolveRegion(spec, b, regions[0], container)] + rest)
  }

  /** `TitusClusterSpec.resolve()`. */
  function Resolve(spec: ClusterSpec, b: Builtins): (r: Result<seq<ServerGroup>>)
    ensures r.Failure? <==> |spec.locations.regions| > 0 && !spec.container.Digest?
    ensures r.Failure? ==> r.error == ErrorResolvingContainer(spec.container)
    ensures r.Success? ==> |r.value| == |spec.locations.regions|
    ensures r.Success? ==> forall i | 0 <= i < |r.value| ::
      spec.container.Digest? && r.value[i] == ResolveRegion(spec, b, spec.locations.regions[i], spec.container.provider)
    ensures r.Success? ==> forall i | 0 <= i < |r.value| ::
      && r.value[i].id.None?
      && r.value[i].name == spec.clusterName
      && r.value[i].location == Location(spec.locations.account, spec.locations.regions[i])
  {
    ResolveRegions(spec, b, spec.locations.regions)
  }

  function RegionOf(g: ServerGroup): string {
    g.location.region
  }

  /** `associateBy { it.location.region }`: every region of the groups becomes a
      key, mapped to a group with that region. */
  function ByRegion(groups: seq<ServerGroup>): (m: map<string, ServerGroup>)
    ensures m.Keys == set g | g in groups :: RegionOf(g)
    ensures forall k | k in m :: RegionOf(m[k]) == k && m[k] in groups
  {
    if |groups| == 0 then map[]
    else
      var last := groups[|groups| - 1];
      var init := groups[..|groups| - 1];
      ByRegion(init)[RegionOf(last) := last]
  }

  /** On a repeated region the later group wins. */
  lemma {:induction false} ByRegionLastWins(groups: seq<ServerGroup>, i: nat)
    requires i < |groups|
    requires forall j | i < j < |groups| :: RegionOf(groups[j]) != RegionOf(groups[i])
    ensures ByRegion(groups)[RegionOf(groups[i])] == groups[i]
  {
    if i < |groups| - 1 {
      var init := groups[..|groups| - 1];
      assert init[i] == groups[i];
      ByRegionLastWins(init, i);
    }
  }

  /** Keying the resolved groups by region loses nothing: the keys are exactly the
      target region names, and each region's group is that region's resolution,
      however often the region is listed. */
  lemma ResolveByRegion(spec: ClusterSpec, b: Builtins)
    requires Resolve(spec, b).Success?
    ensures var m := ByRegion(Resolve(spec, b).value);
      && m.Keys == (set n | n in spec.locations.regions)
      && forall k | k in m :: spec.container.Digest? && m[k] == ResolveRegion(spec, b, k, spec.container.provider)
  {
    var gs := Resolve(spec, b).value;
    var regions := spec.locations.regions;
    var m := ByRegion(gs);
    ByRegionKeys(gs, regions);
    forall k | k in m
      ensures spec.container.Digest? && m[k] == ResolveRegion(spec, b, k, spec.container.provider)
    {
      var i :| 0 <= i < |gs| && gs[i] == m[k];
      assert RegionOf(gs[i]) == regions[i];
    }
  }

  /** Groups listed in step with their regions are keyed by exactly those regions. */
  lemma ByRegionKeys(gs: seq<ServerGroup>, regions: seq<string>)
    requires |gs| == |regions|
    requires forall i | 0 <= i < |gs| :: RegionOf(gs[i]) == regions[i]
    ensures ByRegion(gs).Keys == (set n | n in regions)
  {
  }

  /** With no target regions nothing is resolved and nothing can fail, whatever the container. */
  lemma NoRegionsNoFailure(spec: ClusterSpec, b: Builtins)
    requires |spec.locations.regions| == 0
    ensures Resolve(spec, b) == Success([])
  {
  }
}

=== FILE: scaling.dfy ===
/** `resolveScaling`: the override's or the defaults' whole `Scaling`, normalised
    for Titus, which has no warm-up setting. */
module ScalingResolution {
  import opened Optional
  import opened Types

  /** `q` is `p` with warm-up cleared and each unset cooldown replaced by its default. */
  ghost predicate TargetTrackingNormalized(p: TargetTrackingPolicy, q: TargetTrackingPolicy, b: Builtins) {
    && q.warmup.None?
    && q.settings == p.settings
    && (p.scaleOutCooldown.Some? ==> q.scaleOutCooldown == p.scaleOutCooldown)
    && (p.scaleOutCooldown.None? ==> q.scaleOutCooldown == Some(b.scaleOutCooldown))
    && (p.scaleInCooldown.Some? ==> q.scaleInCooldown == p.scaleInCooldown)
    && (p.scaleInCooldown.None? ==> q.scaleInCooldown == Some(b.scaleInCooldown))
  }

  /** `q` is `p` with warm-up cleared. */
  ghost predicate StepNormalized(p: StepScalingPolicy, q: StepScalingPolicy) {
    q.warmup.None? && q.settings == p.settings
  }

  /** `qs` holds exactly the normalised forms of the policies in `ps`. */
  ghost predicate TargetTrackingSetNormalized(qs: set<TargetTrackingPolicy>, ps: set<TargetTrackingPolicy>, b: Builtins) {
    && (forall p | p in ps :: NormalizeTargetTracking(p, b) in qs)
    && (forall q | q in qs :: exists p | p in ps :: q == NormalizeTargetTracking(p, b))
  }

  ghost predicate StepSetNormalized(qs: set<StepScalingPolicy>, ps: set<StepScalingPolicy>) {
    && (forall p | p in ps :: NormalizeStep(p) in qs)
    && (forall q | q in qs :: exists p | p in ps :: q == NormalizeStep(p))
  }

  /** `r` holds exactly the normalised forms of the policies of `s`. */
  ghost predicate NormalizedFrom(r: Scaling, s: Scaling, b: Builtins) {
    && TargetTrackingSetNormalized(r.targetTrackingPolicies, s.targetTrackingPolicies, b)
    && StepSetNormalized(r.stepScalingPolicies, s.stepScalingPolicies)
  }

  /** No policy of `s` has a warm-up, and every target-tracking policy has both cooldowns. */
  ghost predicate IsNormalized(s: Scaling) {
    && (forall q | q in s.targetTrackingPolicies ::
          q.warmup.None? && q.scaleOutCooldown.Some? && q.scaleInCooldown.Some?)
    && (forall q | q in s.stepScalingPolicies :: q.warmup.None?)
  }

  function NormalizeTargetTracking(p: TargetTrackingPolicy, b: Builtins): (q: TargetTrackingPolicy)
    ensures TargetTrackingNormalized(p, q, b)
  {
    p.(warmup := None,
       scaleOutCooldown := Some(p.scaleOutCooldown.GetOr(b.scaleOutCooldown)),
       scaleInCooldown := Some(p.scaleInCooldown.GetOr(b.scaleInCooldown)))
  }

  function NormalizeStep(p: StepScalingPolicy): (q: StepScalingPolicy)
    ensures StepNormalized(p, q)
  {
    p.(warmup := None)
  }

  function NormalizeTargetTrackingSet(ps: set<TargetTrackingPolicy>, b: Builtins): (qs: set<TargetTrackingPolicy>)
    ensures TargetTrackingSetNormalized(qs, ps, b)
    ensures forall q | q in qs :: q.warmup.None? && q.scaleOutCooldown.Some? && q.scaleInCooldown.Some?
  {
    set p | p in ps :: NormalizeTargetTracking(p, b)
  }

  function NormalizeStepSet(ps: set<StepScalingPolicy>): (qs: set<StepScalingPolicy>)
    ensures StepSetNormalized(qs, ps)
    ensures forall q | q in qs :: q.warmup.None?
  {
    set p | p in ps :: NormalizeStep(p)
  }

  /** The body of the `run` block: both policy sets mapped and collected into sets. */
  function NormalizeScaling(s: Scaling, b: Builtins): (r: Scaling)
    ensures NormalizedFrom(r, s, b)
    ensures IsNormalized(r)
  {
    Scaling(NormalizeTargetTrackingSet(s.targetTrackingPolicies, b), NormalizeStepSet(s.stepScalingPolicies))
  }

  /** The scaling law: normalised from the override's whole `Scaling`, else the
      defaults', else `Scaling()`. */
  ghost predicate ScalingResolved(r: Scaling, spec: ClusterSpec, region: string, b: Builtins) {
    && (OverrideFor(spec, region).scaling.Some? ==>
          NormalizedFrom(r, OverrideFor(spec, region).scaling.value, b))
    && (OverrideFor(spec, region).scaling.None? && spec.defaults.scaling.Some? ==>
          NormalizedFrom(r, spec.defaults.scaling.value, b))
    && (OverrideFor(spec, region).scaling.None? && spec.defaults.scaling.None? ==>
          r == NoScaling)
  }

  /** Whole-object precedence: the override's `Scaling` if set, else the defaults',
      else `Scaling()`; never a per-policy merge. */
  function ResolveScaling(spec: ClusterSpec, region: string, b: Builtins): (r: Scaling)
    ensures ScalingResolved(r, spec, region, b)
    ensures IsNormalized(r)
  {
    match OverrideFor(spec, region).scaling.OrElse(spec.defaults.scaling)
    case Some(s) => NormalizeScaling(s, b)
    case None => NoScaling
  }

  /** Normalisation relates each policy to exactly one result. */
  lemma TargetTrackingNormalizedIsFunctional(p: TargetTrackingPolicy, q1: TargetTrackingPolicy, q2: TargetTrackingPolicy, b: Builtins)
    requires TargetTrackingNormalized(p, q1, b) && TargetTrackingNormalized(p, q2, b)
    ensures q1 == q2
  {
  }

  /** `NormalizedFrom` pins down the resolved scaling: any two results normalised
      from the same source are equal. */
  lemma NormalizedFromIsFunctional(r1: Scaling, r2: Scaling, s: Scaling, b: Builtins)
    requires NormalizedFrom(r1, s, b) && NormalizedFrom(r2, s, b)
    ensures r1 == r2
  {
  }

  /** Normalising an already normalised scaling changes nothing. */
  lemma NormalizeIsIdempotent(s: Scaling, b: Builtins)
    requires IsNormalized(s)
    ensures NormalizeScaling(s, b) == s
  {
  }

  /** Resolving is a fixed point of normalisation. */
  lemma ResolvedScalingIsStable(spec: ClusterSpec, region: string, b: Builtins)
    ensures NormalizeScaling(ResolveScaling(spec, region, b), b) == ResolveScaling(spec, region, b)
  {
  }

  /** With an override `Scaling` present, the defaults' policies play no part. */
  lemma OverrideScalingReplacesDefaults(spec: ClusterSpec, spec': ClusterSpec, region: string, b: Builtins)
    requires OverrideFor(spec, region).scaling.Some?
    requires OverrideFor(spec', region).scaling == OverrideFor(spec, region).scaling
    ensures ResolveScaling(spec, region, b) == ResolveScaling(spec', region, b)
  {
  }
}

=== FILE: scenarios.dfy ===
/** Worked cases of the resolution rules, each over every spec of the stated shape. */
module Scenarios {
  import opened Optional
  import opened Types
  import opened CapacityResolution
  import opened ScalingResolution
  import opened ContainerResolution
  import opened Resolver

  /** Defaults name an entry point, one region has no override: that region runs it. */
  lemma DefaultEntryPointApplies(spec: ClusterSpec, b: Builtins)
    requires spec.defaults.entryPoint == Some("run.sh")
    requires spec.locations.regions == ["us-east-1"]
    requires "us-east-1" !in spec.overrides
    requires spec.container.Digest?
    ensures Resolve(spec, b).Success?
    ensures Resolve(spec, b).value[0].entryPoint == "run.sh"
  {
  }

  /** No capacity and no scaling anywhere: a fixed single instance. */
  lemma NothingSetGivesFixedSingleInstance(spec: ClusterSpec, region: string)
    requires OverrideFor(spec, region).capacity.None? && OverrideFor(spec, region).scaling.None?
    requires spec.defaults.capacity.None? && spec.defaults.scaling.None?
    ensures ResolveCapacity(spec, region) == DefaultCapacity(1, 1, 1)
  {
  }

  /** A target-tracking policy without cooldowns comes out with its warm-up (if
      any) cleared and both default cooldowns. */
  lemma WarmupClearedCooldownsFilled(p: TargetTrackingPolicy, b: Builtins)
    requires p.scaleOutCooldown.None? && p.scaleInCooldown.None?
    ensures NormalizeTargetTracking(p, b) ==
      TargetTrackingPolicy(None, Some(b.scaleOutCooldown), Some(b.scaleInCooldown), p.settings)
  {
  }

  /** An unresolved container fails the whole resolution, naming that container. */
  lemma UnresolvedContainerFails(spec: ClusterSpec, b: Builtins)
    requires spec.container.Reference? || spec.container.VersionedTag?
    requires |spec.locations.regions| > 0
    ensures Resolve(spec, b) == Failure(ErrorResolvingContainer(spec.container))
  {
  }
}

=== FILE: types.dfy ===
/** The data of a Titus cluster: the user's spec (defaults, per-region overrides,
    target regions) and the server groups it resolves to. Every field of a
    `ServerGroupSpec` is optional; every field of a `ServerGroup` is present. */
module Types {
  import opened Optional

  /** A cooldown or warm-up period; only whether it is set matters here. */
  datatype Duration = Duration(seconds: int)

  /** Fixed or autoscaling instance counts. */
  datatype Capacity =
    | DefaultCapacity(min: int, max: int, desired: int)
    | AutoScalingCapacity(min: int, max: int, desired: int)

  /** `settings` carries the policy's remaining fields (name, metric, target value, …),
      which resolution copies unchanged. */
  datatype TargetTrackingPolicy = TargetTrackingPolicy(
    warmup: Option<Duration>,
    scaleOutCooldown: Option<Duration>,
    scaleInCooldown: Option<Duration>,
    settings: map<string, string>)

  datatype StepScalingPolicy = StepScalingPolicy(
    warmup: Option<Duration>,
    settings: map<string, string>)

  datatype Scaling = Scaling(
    targetTrackingPolicies: set<TargetTrackingPolicy>,
    stepScalingPolicies: set<StepScalingPolicy>)

  /** `Scaling()`: no policies at all. */
  const NoScaling := Scaling({}, {})

  /** Resource requests as a user states them, each one optional. */
  datatype ResourcesSpec = ResourcesSpec(
    cpu: Option<int>, disk: Option<int>, gpu: Option<int>, memory: Option<int>, networkMbps: Option<int>)

  /** Resource requests of a resolved server group. */
  datatype Resources = Resources(cpu: int, disk: int, gpu: int, memory: int, networkMbps: int)

  /** Placement constraints, carried as opaque key-value pairs. */
  datatype Constraints = Constraints(hard: map<string, string>, soft: map<string, string>)

  datatype MigrationPolicy = MigrationPolicy(policyType: string)

  datatype ClusterDependencies = ClusterDependencies(
    loadBalancerNames: set<string>,
    securityGroupNames: set<string>,
    targetGroups: set<string>)

  /** A container image reference whose digest is known. */
  datatype DigestProvider = DigestProvider(organization: string, image: string, digest: string)

  /** A container reference as it appears in a spec: only `Digest` carries a digest. */
  datatype ContainerProvider =
    | Digest(provider: DigestProvider)
    | Reference(reference: string)
    | VersionedTag(organization: string, image: string)

  /** The fields shared by `defaults` and each region override. */
  datatype ServerGroupSpec = ServerGroupSpec(
    capacity: Option<Capacity>,
    capacityGroup: Option<string>,
    constraints: Option<Constraints>,
    dependencies: Option<ClusterDependencies>,
    entryPoint: Option<string>,
    env: Option<map<string, string>>,
    containerAttributes: Option<map<string, string>>,
    iamProfile: Option<string>,
    migrationPolicy: Option<MigrationPolicy>,
    resources: Option<ResourcesSpec>,
    tags: Option<map<string, string>>,
    scaling: Option<Scaling>)

  /** A spec that sets nothing. */
  const Unset := ServerGroupSpec(None, None, None, None, None, None, None, None, None, None, None, None)

  /** The account and the target regions; of each region spec only its name is used. */
  datatype Locations = Locations(account: string, regions: seq<string>)

  /** A Titus cluster spec. `application` is the moniker's app and `clusterName`
      the moniker's string form, both taken as given. */
  datatype ClusterSpec = ClusterSpec(
    application: string,
    clusterName: string,
    locations: Locations,
    container: ContainerProvider,
    defaults: ServerGroupSpec,
    overrides: map<string, ServerGroupSpec>)

  datatype Location = Location(account: string, region: string)

  /** One fully resolved server group. */
  datatype ServerGroup = ServerGroup(
    id: Option<string>,
    name: string,
    location: Location,
    capacity: Capacity,
    capacityGroup: string,
    constraints: Constraints,
    container: DigestProvider,
    dependencies: ClusterDependencies,
    entryPoint: string,
    env: map<string, string>,
    containerAttributes: map<string, string>,
    migrationPolicy: MigrationPolicy,
    resources: Resources,
    tags: map<string, string>,
    scaling: Scaling)

  /** Built-in values defined outside the resolver: `Resources()`, `Constraints()`,
      `MigrationPolicy()` and the two default autoscaling cooldowns. */
  datatype Builtins = Builtins(
    resources: Resources,
    constraints: Constraints,
    migrationPolicy: MigrationPolicy,
    scaleOutCooldown: Duration,
    scaleInCooldown: Duration)

  /** The only failure: the spec's container was not resolved to a digest. */
  datatype ResolveError = ErrorResolvingContainer(container: ContainerProvider)

  /** `overrides[region]?.f` is `OverrideFor(spec, region).f`: a region without
      an override reads as one that sets nothing. */
  function OverrideFor(spec: ClusterSpec, region: string): ServerGroupSpec {
    if region in spec.overrides then spec.overrides[region] else Unset
  }
}
